=== FILE: README.md ===
# D0 bleaching dose advisor — Dafny model

This project models the decision logic of a ClO2 dose advisor for the D0
bleaching stage of a pulp mill, in two parts.

- **The `/predict` endpoint** (backend/main.py):
  - It derives pulp flow and tower retention time from production rate and
    consistency.
  - It holds the current dose when the estimated outlet brightness is inside
    the 69–71 %ISO band.
  - Otherwise it picks a dose in one of two ways. With a high inlet
    brightness it cuts dose to remove the outlet's excess over 70 %ISO.
    Otherwise it runs a bisection for the smallest dose whose predicted outlet
    is within 0.1 of 70.
  - The chosen dose then passes three guardrails in order: the directional
    guardrail, the ±20 % rate limiter and the absolute bounds [5, 60].
- **The dashboard page** (frontend/app/page.tsx):
  - the process-reading form and its input coercion;
  - the submit lifecycle over loading, result and error state;
  - the three status tables (colour, icon, text);
  - the two-point brightness/dose chart;
  - the adjustment indicator.

Everything is stated over Dafny's `real`, as idealised arithmetic. The
machine-learned models are not modelled:

- The predictor is a function parameter. In the bisection it is
  `pred: real -> real`, mapping a dose to a predicted outlet brightness with
  every other reading held fixed. For the endpoint's final estimate it is
  `outletAt(dose, inlet)`.
- The current-outlet estimate, the optimizer's K-factor correction and the
  search result are inputs.
- The HTTP call is an outcome chosen by the environment, `Success(body)` or
  `Failure`.

Python's `ZeroDivisionError` becomes `Err(ZeroDivision)`. The endpoint turns
that error into an HTTP 500.

The module `Wire` states what crosses HTTP between the two files and what
follows from their naming the fields differently. These mismatches are
stated, not reconciled:

- The page posts `pulp_flow` but not `production_rate` or `consistency`.
  Request validation therefore rejects every request the page can make
  (`Wire.EveryPageRequestIsRejected`).
- The page reads `delta` and `estimated_outlet`. The backend sends
  `delta_dose` and `estimated_outlet_current`. As a result the adjustment box
  always shows the green style with no arrow and "NaN kg", and the current
  chart point has no brightness.
- Of the backend's six status codes, only `RATE_LIMITED` is one the page
  knows. The other five fall to the default arms.

Some behaviours of the code that the model keeps as they are:

- **Flow and retention.** 700 t/d at 10.5 % consistency gives a flow of
  70000/9.45, about 7407.4, and a retention of about 3.645.
- **Connection error.** A later success does not clear the connection error,
  because the page never calls `setError('')`.
- **Status vocabulary.** The page's status tables know only the five codes
  listed in them. They have no entries for the backend's `HOLD_STEADY`,
  `OPTIMIZED` or `SAFETY_*`.
- **Zero consistency.** The endpoint does not substitute a placeholder. The
  division raises, and the request ends in HTTP 500.

## Model

| member | source | states |
|---|---|---|
| `Process.CalculateProcessParams` | backend/main.py:77-84 | Fails exactly when consistency or production rate is 0. Otherwise flow·0.9·consistency = 100·rate and retention·flow = 450·60. Both are positive when rate and consistency are positive. |
| `Process.RetentionFallsAsRateRises` | backend/main.py:77-84 | At a fixed positive consistency, a higher production rate gives a strictly higher flow and a strictly shorter retention time. |
| `Process.ReferenceOperatingPoint` | backend/main.py:77-84 | 700 t/d at 10.5 % consistency gives a flow in (7407, 7408) and a retention in (3.64, 3.65). |
| `Bisection.Bisect` | backend/main.py:175-208 | The loop runs 1 to 50 times. It stops early exactly when the bracket becomes narrower than 0.1: a run that stopped before 50 iterations ended narrower than 0.1, and every bracket before the last was at least 0.1 wide. Every probe halves the bracket. If the initial bracket is ordered, the bracket and every probe stay inside it. A best dose exists exactly when some probe met the tolerance; it is then the smallest such probe, and the bracket's upper end is at or below it. For a predictor non-decreasing on the initial bracket, the lower end is the initial one or has its outlet below the tolerance band, the upper end is the initial one or has its outlet not below the band, and after a hit the upper end is the best dose. |
| `Bisection.HalvedTimesPow2` | backend/main.py:181-204 | A width halved n times, multiplied by 2^n, gives the width back. |
| `Bisection.OptimizeDose` | backend/main.py:126-225 | Fails exactly when kappa + 0.1 = 0. The iteration count is in [1, 50], and the final bracket is the initial bracket [max(5, hint/2), min(60, 1.5·hint)] halved that many times. If the initial bracket is ordered, every probe, the final bracket and the answer lie inside it. If any probe met the 0.1 tolerance, the answer is the smallest probe that met it, and the final bracket's upper end is at or below it. Otherwise the answer is the midpoint of the final bracket. A run that stopped before 50 iterations ended with a bracket narrower than 0.1, and every earlier bracket was at least 0.1 wide, so the iteration count is fixed by the initial width. For a predictor non-decreasing on the initial bracket, no dose between the initial and the final lower end meets the tolerance. The final upper end is the initial one or a dose whose outlet is not below the band, and after a hit it is the answer. The predicted outlet is the predictor at the answer, and k_optimal is the answer over kappa + 0.1. |
| `Bisection.BracketKeepsAHit` | backend/main.py:136 | For a non-decreasing predictor and a final bracket with those ends: when some dose of the initial bracket meets the tolerance, each such dose is at least the final lower end, and one lies in the final bracket. So the answer is the minimum such dose to within the final bracket's width. |
| `Process.KFactor` | backend/main.py:237 | A K-factor times (kappa + 0.1) gives back the dose. |
| `ControlLaw.DeepCut` | backend/main.py:271-289 | The status is DEEP_CUT_MODE. With an outlet excess e = max(0, outlet − 70), the dose is current − e/0.15 when that is ≥ 5, and 5 otherwise. So the dose is ≥ 5, and ≤ current when current ≥ 5. The simulated inlet falls by 0.15 times the actual cut, which is exactly the excess when the floor does not bind. The reason reports that cut and that drop. |
| `ControlLaw.SearchBranch` | backend/main.py:304-326 | The normal branch takes the search's dose with status OPTIMIZED, which is neither a deep-cut nor a safety status. It keeps the measured inlet, and its reason is the adjustment from the estimated outlet to 70. |
| `ControlLaw.DirectionalGuard` | backend/main.py:328-341 | In the deep-cut branch the guard does nothing. Elsewhere it works as follows. Under 69 with a decrease, the dose becomes 1.02·current and the status SAFETY_UNDERBLEACH. Over 71 with an increase, the dose becomes 0.98·current and the status SAFETY_OVERBLEACH. Otherwise nothing changes. For a non-negative current dose, it never decreases the dose under target and never increases it over target. |
| `ControlLaw.RateLimit` | backend/main.py:343-358 | A move within 20 % is untouched. A larger move sets the status to RATE_LIMITED unless the status is already a SAFETY one. For a non-negative current dose, the result is within 20 % of the current dose and equals the clip of the dose to [0.8·current, 1.2·current]. It never writes the deep-cut message and never changes the simulated inlet. |
| `ControlLaw.Decide` | backend/main.py:263-361 | Outside the band, the guarded dose lies in [5, 60], the status is not HOLD_STEADY, and the rate-limited deep-cut reason never occurs. |
| `ControlLaw.Respond` | backend/main.py:237-386 | The response echoes the current dose and the estimated outlet, delta = recommended − current, and both K-factors are their doses over kappa + 0.1. The flow and retention are the derived process parameters. Inside [69, 71] it holds the dose: recommended = current, delta = 0, k_optimal = k_current, status HOLD_STEADY. Outside, the recommended dose lies in [5, 60] and the status is not HOLD_STEADY. The predicted outlet is then the predictor at the recommended dose, with the measured inlet in the search branch and the deep cut's simulated inlet in the deep-cut branch. |
| `ControlLaw.PredictDose` | backend/main.py:232-389 | The endpoint succeeds exactly when consistency ≠ 0, production rate ≠ 0, kappa ≠ −0.1 and the derived flow ≠ −1 (the predictor divides by flow + 1). It then returns the response built from the derived process parameters. |
| `RealMath.Clip` | backend/main.py:361 | `np.clip` returns the point of [lo, hi] nearest to its argument. |
| `RealMath.Sign` | backend/main.py:348 | `np.sign` gives −1, 0 or 1, and sign(x)·x = \|x\|. |
| `ControlProperties.DeepCutTestMatchesSubstring` | backend/main.py:333 | The deep-cut predicate holds exactly when "DEEP_CUT" occurs in the status code string. |
| `ControlProperties.SafetyTestMatchesSubstring` | backend/main.py:349 | The safety predicate holds exactly when "SAFETY" occurs in the status code string. |
| `ControlProperties.AbsentCharacter` | backend/main.py:333 | A string that lacks one of the needle's characters does not contain the needle. |
| `ControlProperties.DeepCutBypassesDirectionalGuard` | backend/main.py:333-350 | In the deep-cut branch the final status is DEEP_CUT_MODE or RATE_LIMITED, never a SAFETY status. |
| `ControlProperties.UnderbleachGuard` | backend/main.py:334-337 | In the search branch, under 69 with a searched decrease and current ≥ 0, the status is SAFETY_UNDERBLEACH, the reason is "prevented decrease", and the dose is clip(1.02·current, 5, 60). |
| `ControlProperties.OverbleachGuard` | backend/main.py:338-341 | In the search branch, over 71 with a searched increase and current ≥ 0, the status is SAFETY_OVERBLEACH, the reason is "prevented increase", and the dose is clip(0.98·current, 5, 60). |
| `ControlProperties.RateBoundIffDoseInRange` | backend/main.py:343-361 | Outside the band with current ≥ 0, the final dose is within 20 % of the current dose exactly when current ∈ [5/1.2, 60/0.8]. Below that range the floor of 5 undoes the rate limit, and above it the cap of 60 does. |
| `ControlProperties.LimitedDeepCutKeepsFullCutSimulation` | backend/main.py:344-369 | When the deep cut is rate limited, the status is RATE_LIMITED with the generic "change limited" reason. The final prediction still uses the inlet simulated for the full, unlimited cut, because the update at lines 352-356 is unreachable. |
| `ControlProperties.SteadyHoldSkipsBounds` | backend/main.py:248-261 | Inside the band, a current dose of 100 is echoed although it is above the cap of 60. |
| `Classifier.Classify` | frontend/app/page.tsx:102-107 | A code is classified as known only if it is that known status's code string. An unrecognised code carries itself and equals no known code. |
| `Classifier.ClassifyInvertsCode` | frontend/app/page.tsx:102-107 | Classifying a known status's code gives that status back. |
| `Classifier.StatusColor` | frontend/app/page.tsx:101-110 | The theme is slate exactly for unrecognised codes, and orange exactly for the two GUARDRAIL codes. |
| `Classifier.ColorSeparatesAllButGuardrails` | frontend/app/page.tsx:101-110 | Two known codes with the same theme are equal or are both GUARDRAIL codes. |
| `Classifier.StatusIcon` | frontend/app/page.tsx:112-119 | The warning icon is shown exactly for unrecognised codes and the two GUARDRAIL codes. |
| `Classifier.StatusText` | frontend/app/page.tsx:121-130 | The function is total. The text equals the raw code exactly when the code is unrecognised. |
| `Classifier.KnownLabelsDistinct` | frontend/app/page.tsx:121-130 | Distinct known codes have distinct labels. |
| `Dashboard.HandleChange` | frontend/app/page.tsx:62-68 | The edited field becomes the parsed number, or 0 when parsing gives NaN. Every other field is unchanged. |
| `Dashboard.LastEditWins` | frontend/app/page.tsx:62-68 | A second edit of a field overrides the first. |
| `Dashboard.EditsOfDistinctFieldsCommute` | frontend/app/page.tsx:62-68 | Edits of different fields commute. |
| `Dashboard.GraphPoints` | frontend/app/page.tsx:79-92 | The chart has exactly two points. The first is the current point at (estimated_outlet, current_dose). The second is the target point at (70, recommended_dose). |
| `Dashboard.ChartPlotsCurrentAgainstTarget` | frontend/app/page.tsx:79-92 | When delta is the dose difference, it is also the gap between the two points' doses. |
| `Dashboard.BeginSubmit` | frontend/app/page.tsx:70-72 | Submitting sets loading before the request and changes nothing else. |
| `Dashboard.Settle` | frontend/app/page.tsx:74-98 | Loading ends after either outcome. A failure sets the connection message and leaves result and graph. A success replaces result and graph and leaves the error as it was. |
| `Dashboard.Step` | frontend/app/page.tsx:209 | While loading, a press does nothing. When idle, it starts a request. A completion while loading ends loading. |
| `Dashboard.InitialStateConsistent` | frontend/app/page.tsx:48-60 | The initial page has no result, an empty graph and no error. |
| `Dashboard.RunKeepsConsistent` | frontend/app/page.tsx:57-99 | After any sequence of events, the graph is empty without a result and is the result's two points with one. The error is empty or the connection message. |
| `Dashboard.ErrorIsNeverCleared` | frontend/app/page.tsx:94-98 | Once the connection error is set, no sequence of events clears it. |
| `Dashboard.FailuresKeepResult` | frontend/app/page.tsx:94-98 | Events without a successful completion leave result and graph unchanged. |
| `Dashboard.SubmitRoundTrip` | frontend/app/page.tsx:70-99 | A press on an idle page followed by a successful completion shows that result and graph. It leaves the page idle and the error as it was. |
| `Dashboard.Adjustment` | frontend/app/page.tsx:256-263 | For a number, the arrow is ▲ exactly when delta > 0 and ▼ exactly when delta < 0, and the box colour follows the arrow. The magnitude is \|delta\|. A non-number gives the green box, no arrow and NaN. |
| `Wire.RequestBody` | frontend/app/page.tsx:75 | The posted body has exactly six keys, each form field under its input name. |
| `Wire.ParseProcessInput` | backend/main.py:55-62 | A body is accepted exactly when it has all seven ProcessInput keys, and each of the seven parsed fields is the body's value under its key. |
| `Wire.EncodeResponse` | backend/main.py:64-75 | The response body has exactly the ten OptimizationResponse keys other than the reason. Each numeric key carries its response field, and control_status carries the status code string. |
| `Wire.ReadApiResult` | frontend/app/page.tsx:37-45 | Each ApiResult field is read from the key of the same name: recommended_dose, current_dose, delta, k_optimal, k_current and estimated_outlet. A key that is absent or not a number reads as undefined, never NaN. The status is the string sent, or empty when none is. |
| `Wire.EveryPageRequestIsRejected` | frontend/app/page.tsx:28-35 | The page's body lacks production_rate and consistency, so validation rejects it and every submit ends in Failure. |
| `Wire.PageReadsBackendResponse` | frontend/app/page.tsx:37-45 | Doses, K-factors and status reach the page. `delta` and `estimated_outlet` read as undefined. |
| `Wire.BackendAdjustmentIsBlank` | frontend/app/page.tsx:256-263 | For any backend response, the adjustment box is green with no arrow and a NaN magnitude. |
| `Wire.ChartOfBackendResponse` | frontend/app/page.tsx:79-92 | For a response of the endpoint, the target point's brightness is the backend's target of 70. The doses differ by the response's delta, and the current point has no brightness. |
| `Wire.BackendStatusVocabulary` | frontend/app/page.tsx:101-130 | RATE_LIMITED classifies as known. Every other backend code is unrecognised, with the slate theme, the warning icon, and the raw code as its text. |

## Left out

- The machine-learned models, for two reasons: they are foreign code, and
  they are opaque. This covers artifact loading (backend/main.py:34-53), the
  predictor's feature assembly and model call (87-124), and the optimizer's
  feature assembly and model call (147-167). The predictor is a function
  parameter. The optimizer's K-factor correction and the K-target are inputs.
- Bisection.OptimizeDose: its "fails exactly when kappa + 0.1 = 0" assumes a total
  predictor. The source's predictor also divides by flow + 1 on the first probe
  (backend/main.py:107, called at 186). That case cannot arise from
  `predict_dose`, which has already failed on the same division at line 241
  (`ControlLaw.PredictDose`).
- The "Models not initialized" check (backend/main.py:229-230), because
  models are always present in this model.
- `round(…)` in the response and the text of the `reason` messages
  (backend/main.py:260, 292, 326, 356-358, 375-385), because they are float
  formatting. Reasons are a datatype carrying their quantities, and the
  encoded response omits the reason text, which the page never reads.
- `ControlConstants.ErrorTolerance` is declared but never read, as in the
  source.
- FastAPI, CORS, the `/health` and `/` endpoints, and the server start-up
  (backend/main.py:8-16, 391-419), because they are transport plumbing.
- Pydantic's coercion of non-numeric JSON values, because the page always
  sends numbers.
- Float behaviour:
  - `parseFloat` returning Infinity;
  - overflow;
  - JavaScript division by zero in the dose-deviation percentage
    (frontend/app/page.tsx:281);
  - `Math.floor` in the axis domain (304).

  Arithmetic is over idealised reals.
- The HTTP transport (frontend/app/page.tsx:75), which is an abstract outcome.
  A JSON string where the page expects a number reads as undefined, because
  the backend never sends one.
- All JSX rendering, recharts, icons as images, styling, the MAINTAIN_OPTIMAL
  banner (frontend/app/page.tsx:267-272) and `MetricCard` (379-387), because
  they are presentation only.
- Handler inputs whose name is not one of the six form fields. The form only
  has those six inputs.

=== FILE: bisection.dfy ===
/** `optimize_dose_binary_search` (backend/main.py): a bisection for the
    smallest ClO2 dose whose predicted outlet brightness is within tolerance
    of the target. The machine-learned predictor is a parameter `pred`
    (dose to predicted outlet, every other reading held fixed), and the
    optimizer model's K-factor correction `deltaK` is an input. */
module Bisection {
  import opened Wrappers
  import opened RealMath
  import opened ControlConstants
  import opened Process

  /** The dictionary the search returns. */
  datatype Optimization = Optimization(
    optimalDose: real,
    predictedOutlet: real,
    kOptimal: real,
    optimizerHint: real,
    iterations: nat)

  /** Dose suggested by the optimizer: its K-factor times kappa. */
  function DoseHint(kTarget: real, deltaK: real, kappa: real): real {
    (kTarget + deltaK) * kappa
  }

  /** Initial bracket: half to one and a half times the hint, cut to the
      pump minimum below and the dose maximum above. */
  function InitialLow(hint: real): real {
    Max(MinPumpFlow, hint * 0.5)
  }

  function InitialHigh(hint: real): real {
    Min(MaxDose, hint * 1.5)
  }

  predicate WithinTolerance(outlet: real, target: real) {
    Abs(outlet - target) <= SearchTolerance
  }

  /** The `i`-th probed dose met the tolerance. */
  ghost predicate Hit(pred: real -> real, target: real, probes: seq<real>, i: int) {
    0 <= i < |probes| && WithinTolerance(pred(probes[i]), target)
  }

  /** The predictor never lowers the outlet as the dose rises on `[lo, hi]`. */
  ghost predicate NonDecreasing(pred: real -> real, lo: real, hi: real) {
    forall x, y :: lo <= x <= y <= hi ==> pred(x) <= pred(y)
  }

  /** 2 to the power `n`, the factor by which `n` bisection steps shrink a
      bracket. */
  function Pow2(n: nat): real {
    if n == 0 then 1.0 else 2.0 * Pow2(n - 1)
  }

  /** A width halved `n` times. */
  function Halved(w: real, n: nat): real {
    if n == 0 then w else Halved(w, n - 1) / 2.0
  }

  /** Halving `n` times divides by 2^n. */
  lemma {:induction false} HalvedTimesPow2(w: real, n: nat)
    ensures Halved(w, n) * Pow2(n) == w
  {
    if n > 0 {
      HalvedTimesPow2(w, n - 1);
      assert Halved(w, n) * Pow2(n) == Halved(w, n - 1) * Pow2(n - 1);
    }
  }

  /** The loop of the search, from the bracket `[lo0, hi0]`: at most 50
      midpoint probes, each halving the bracket, stopping at the first
      bracket narrower than the convergence width. A probe within tolerance becomes
      the best dose if it is smaller than the previous best and the search
      goes on below it; a probe under target raises the lower end and one
      over target lowers the upper end. */
  method Bisect(pred: real -> real, target: real, lo0: real, hi0: real)
    returns (best: Option<real>, bestOutlet: real, lo: real, hi: real, count: nat, ghost probes: seq<real>)
    ensures 1 <= count <= MaxIterations && |probes| == count
    ensures count < MaxIterations ==> hi - lo < ConvergenceWidth
    // It stops at the first bracket narrower than the convergence width.
    ensures count > 1 ==> Halved(hi0 - lo0, count - 1) >= ConvergenceWidth
    ensures hi - lo == Halved(hi0 - lo0, count)
    ensures lo0 <= hi0 ==> lo0 <= lo <= hi <= hi0
    ensures lo0 <= hi0 ==> forall i :: 0 <= i < |probes| ==> lo0 <= probes[i] <= hi0
    ensures best.None? <==> forall i :: !Hit(pred, target, probes, i)
    ensures best.Some? ==>
              && best.value in probes
              && WithinTolerance(pred(best.value), target) && bestOutlet == pred(best.value)
              && hi <= best.value
              && forall i :: Hit(pred, target, probes, i) ==> best.value <= probes[i]
    ensures lo0 <= hi0 && NonDecreasing(pred, lo0, hi0) ==>
              && (lo == lo0 || pred(lo) < target - SearchTolerance)
              && (hi == hi0 || pred(hi) >= target - SearchTolerance)
              && (best.Some? ==> hi == best.value)
  {
    ghost var monotone := lo0 <= hi0 && NonDecreasing(pred, lo0, hi0);
    lo, hi := lo0, hi0;
    best, bestOutlet := None, 0.0;
    count := 0;
    var converged := false;
    probes := [];
    while count < MaxIterations && !converged
      invariant count <= MaxIterations
      invariant |probes| == count
      invariant converged ==> count >= 1 && hi - lo < ConvergenceWidth
      invariant !converged && count > 0 ==> hi - lo >= ConvergenceWidth
      invariant count > 1 ==> Halved(hi0 - lo0, count - 1) >= ConvergenceWidth
      invariant hi - lo == Halved(hi0 - lo0, count)
      invariant lo0 <= hi0 ==> lo0 <= lo <= hi <= hi0
      invariant lo0 <= hi0 ==> forall i :: 0 <= i < |probes| ==> lo0 <= probes[i] <= hi0
      invariant best.None? ==> forall i :: !Hit(pred, target, probes, i)
      invariant best.Some? ==> best.value in probes && count > 0
      invariant best.Some? ==> WithinTolerance(pred(best.value), target) && bestOutlet == pred(best.value)
      invariant best.Some? ==> hi <= best.value
      invariant best.Some? ==> forall i :: Hit(pred, target, probes, i) ==> best.value <= probes[i]
      invariant monotone ==> lo == lo0 || pred(lo) < target - SearchTolerance
      invariant monotone ==> hi == hi0 || pred(hi) >= target - SearchTolerance
      invariant monotone && best.Some? ==> hi == best.value
      decreases MaxIterations - count
    {
      var test := (lo + hi) / 2.0;
      var outlet := pred(test);
      ghost var previous := probes;
      probes := probes + [test];
      assert forall i :: Hit(pred, target, probes, i) <==>
        Hit(pred, target, previous, i) || (i == count && WithinTolerance(outlet, target));
      count := count + 1;
      if WithinTolerance(outlet, target) {
        if best.None? || test < best.value {
          best := Some(test);
          bestOutlet := outlet;
        }
        hi := test;
      } else if outlet - target < 0.0 {
        lo := test;
      } else {
        if monotone && best.Some? {
          // Above the tolerance at `test` yet within it at `best.value`:
          // only possible below `test`, which the bracket excludes.
          assert pred(test) <= pred(best.value);
        }
        hi := test;
      }
      if hi - lo < ConvergenceWidth {
        converged := true;
      }
    }
    if best.Some? {
      ghost var j :| 0 <= j < |probes| && probes[j] == best.value;
      assert Hit(pred, target, probes, j);
    }
  }

  /** The search. `probes` lists the doses tried, in order. When the initial
      bracket is ordered, every probe and the answer lie inside it. When some
      probe met the tolerance, the answer is the smallest such probe;
      otherwise it is the midpoint of the final bracket `[finalLow,
      finalHigh]`. Every iteration halves the bracket, so its final width is
      the initial width halved `iterations` times (divided by
      2^iterations, by `HalvedTimesPow2`). The search stops at the first
      bracket narrower than the convergence width, or after 50 iterations,
      so the initial width fixes the iteration count. After a hit the search
      continues below it, so the final bracket never reaches above the
      answer. For a predictor that is non-decreasing on the initial bracket,
      the bracket keeps the target between its ends: no dose between the
      initial lower end and `finalLow` meets the tolerance, and `finalHigh`
      is the initial upper end or a dose whose outlet is not below the
      tolerance band. After a hit the answer is `finalHigh`. By
      `BracketKeepsAHit`, when some dose of the initial bracket meets the
      tolerance, every such dose is at least `finalLow` and one of them lies
      in the final bracket. */
  method OptimizeDose(pred: real -> real, kTarget: real, deltaK: real, kappa: real, target: real)
    returns (r: Result<Optimization, Fault>, ghost probes: seq<real>, ghost finalLow: real, ghost finalHigh: real)
    ensures r.Err? <==> kappa + KappaOffset == 0.0
    ensures r.Ok? ==>
              var o := r.value;
              var lo0 := InitialLow(DoseHint(kTarget, deltaK, kappa));
              var hi0 := InitialHigh(DoseHint(kTarget, deltaK, kappa));
              && 1 <= o.iterations <= MaxIterations
              && |probes| == o.iterations
              && o.optimizerHint == DoseHint(kTarget, deltaK, kappa)
              && o.predictedOutlet == pred(o.optimalDose)
              && o.kOptimal == KFactor(o.optimalDose, kappa)
              && (lo0 <= hi0 ==> lo0 <= o.optimalDose <= hi0)
              && (lo0 <= hi0 ==> forall i :: 0 <= i < |probes| ==> lo0 <= probes[i] <= hi0)
    ensures r.Ok? ==>
              var lo0 := InitialLow(DoseHint(kTarget, deltaK, kappa));
              var hi0 := InitialHigh(DoseHint(kTarget, deltaK, kappa));
              && (lo0 <= hi0 ==> lo0 <= finalLow <= finalHigh <= hi0)
              && (r.value.iterations < MaxIterations ==> finalHigh - finalLow < ConvergenceWidth)
              && (r.value.iterations > 1 ==> Halved(hi0 - lo0, r.value.iterations - 1) >= ConvergenceWidth)
              && finalHigh - finalLow == Halved(hi0 - lo0, r.value.iterations)
              && ((forall i :: !Hit(pred, target, probes, i)) ==>
                    r.value.optimalDose == (finalLow + finalHigh) / 2.0)
    ensures r.Ok? && (exists i :: Hit(pred, target, probes, i)) ==>
              && WithinTolerance(r.value.predictedOutlet, target)
              && r.value.optimalDose in probes
              && finalHigh <= r.value.optimalDose
              && forall i :: Hit(pred, target, probes, i) ==> r.value.optimalDose <= probes[i]
    ensures r.Ok? ==>
              var lo0 := InitialLow(DoseHint(kTarget, deltaK, kappa));
              var hi0 := InitialHigh(DoseHint(kTarget, deltaK, kappa));
              (lo0 <= hi0 && NonDecreasing(pred, lo0, hi0) ==>
                 && (forall x :: lo0 <= x < finalLow ==> !WithinTolerance(pred(x), target))
                 && (finalHigh == hi0 || pred(finalHigh) >= target - SearchTolerance)
                 && ((exists i :: Hit(pred, target, probes, i)) ==> r.value.optimalDose == finalHigh))
  {
    if kappa + KappaOffset == 0.0 {
      // The predictor divides the first probe by kappa + 0.1 and raises.
      return Err(ZeroDivision), [], 0.0, 0.0;
    }
    var hint := DoseHint(kTarget, deltaK, kappa);
    var lo0, hi0 := InitialLow(hint), InitialHigh(hint);
    var best, bestOutlet, lo, hi, count;
    best, bestOutlet, lo, hi, count, probes := Bisect(pred, target, lo0, hi0);
    var dose: real;
    var outlet: real;
    if best.Some? {
      dose, outlet := best.value, bestOutlet;
    } else {
      dose := (lo + hi) / 2.0;
      outlet := pred(dose);
    }
    if lo0 <= hi0 && NonDecreasing(pred, lo0, hi0) && lo != lo0 {
      forall x | lo0 <= x < lo
        ensures !WithinTolerance(pred(x), target)
      {
        assert pred(x) <= pred(lo);
      }
    }
    r := Ok(Optimization(dose, outlet, KFactor(dose, kappa), hint, count));
    finalLow, finalHigh := lo, hi;
  }

  /** What the final bracket's ends say for a non-decreasing predictor:
      when some dose of the initial bracket meets the tolerance, none lies
      below the final bracket and one lies inside it. With the width the
      search reaches, the answer is the minimum such dose to within
      `finalHigh - finalLow`. */
  lemma BracketKeepsAHit(pred: real -> real, target: real, lo0: real, hi0: real,
                         finalLow: real, finalHigh: real, x: real)
    requires NonDecreasing(pred, lo0, hi0)
    requires lo0 <= finalLow <= finalHigh <= hi0
    requires forall y :: lo0 <= y < finalLow ==> !WithinTolerance(pred(y), target)
    requires finalHigh == hi0 || pred(finalHigh) >= target - SearchTolerance
    requires lo0 <= x <= hi0 && WithinTolerance(pred(x), target)
    ensures finalLow <= x
    ensures exists y :: finalLow <= y <= finalHigh && WithinTolerance(pred(y), target)
  {
  }
}

=== FILE: classifier.dfy ===
/** The dashboard's three status tables, `getStatusColor`, `getStatusIcon`
    and `getStatusText` (frontend/app/page.tsx). Each is a switch on the raw
    status string with a default arm; `Classify` is the closed view of the
    same vocabulary, with an explicit arm for unrecognised codes. */
module Classifier {

  /** The status codes the dashboard has a case for. */
  datatype KnownStatus =
    | MaintainOptimal
    | OptimizationAction
    | GuardrailUnderbleach
    | GuardrailOverbleach
    | RateLimited
  {
    function Code(): string {
      match this
      case MaintainOptimal => "MAINTAIN_OPTIMAL"
      case OptimizationAction => "OPTIMIZATION_ACTION"
      case GuardrailUnderbleach => "GUARDRAIL_UNDERBLEACH"
      case GuardrailOverbleach => "GUARDRAIL_OVERBLEACH"
      case RateLimited => "RATE_LIMITED"
    }

    predicate IsGuardrail() {
      GuardrailUnderbleach? || GuardrailOverbleach?
    }
  }

  datatype Classified = Known(status: KnownStatus) | Unrecognized(code: string)

  /** Reads a raw status string into the closed vocabulary. */
  function Classify(code: string): (c: Classified)
    ensures c.Known? ==> c.status.Code() == code
    ensures c.Unrecognized? ==> c.code == code && forall k: KnownStatus :: k.Code() != code
  {
    if code == "MAINTAIN_OPTIMAL" then Known(MaintainOptimal)
    else if code == "OPTIMIZATION_ACTION" then Known(OptimizationAction)
    else if code == "GUARDRAIL_UNDERBLEACH" then Known(GuardrailUnderbleach)
    else if code == "GUARDRAIL_OVERBLEACH" then Known(GuardrailOverbleach)
    else if code == "RATE_LIMITED" then Known(RateLimited)
    else Unrecognized(code)
  }

  /** Classifying a known code gives that code back: the closed vocabulary
      and the code strings are in one-to-one correspondence. */
  lemma ClassifyInvertsCode(k: KnownStatus)
    ensures Classify(k.Code()) == Known(k)
  {
  }

  /** Colour themes of the status banner, one per Tailwind class string
      `getStatusColor` returns. */
  datatype Theme = Blue | Green | Orange | Yellow | Slate

  /** Icons of the status banner. */
  datatype Icon = ShieldCheck | TrendingUp | Activity | AlertTriangle

  /** `getStatusColor`: the two guardrail codes share the orange theme and
      every unrecognised code gets the slate default. */
  function StatusColor(status: string): (t: Theme)
    ensures t == Slate <==> Classify(status).Unrecognized?
    ensures t == Orange <==> Classify(status).Known? && Classify(status).status.IsGuardrail()
  {
    if status == "MAINTAIN_OPTIMAL" then Blue
    else if status == "OPTIMIZATION_ACTION" then Green
    else if status == "GUARDRAIL_UNDERBLEACH" || status == "GUARDRAIL_OVERBLEACH" then Orange
    else if status == "RATE_LIMITED" then Yellow
    else Slate
  }

  /** `getStatusIcon`: only MAINTAIN_OPTIMAL, OPTIMIZATION_ACTION and
      RATE_LIMITED have their own icon; the guardrail codes and every
      unrecognised code share the warning triangle. */
  function StatusIcon(status: string): (i: Icon)
    ensures i == AlertTriangle <==>
              Classify(status).Unrecognized? || Classify(status).status.IsGuardrail()
  {
    if status == "MAINTAIN_OPTIMAL" then ShieldCheck
    else if status == "OPTIMIZATION_ACTION" then TrendingUp
    else if status == "RATE_LIMITED" then Activity
    else AlertTriangle
  }

  /** `getStatusText`: a fixed label per known code; the raw code itself
      otherwise. The text equals the code exactly when the code is
      unrecognised. */
  function StatusText(status: string): (text: string)
    ensures text == status <==> Classify(status).Unrecognized?
  {
    if status == "MAINTAIN_OPTIMAL" then "KONDISI OPTIMAL (MAINTAIN)"
    else if status == "OPTIMIZATION_ACTION" then "REKOMENDASI OPTIMASI"
    else if status == "GUARDRAIL_UNDERBLEACH" then "SAFETY: UNDER-BLEACH DETECTED"
    else if status == "GUARDRAIL_OVERBLEACH" then "SAFETY: OVER-BLEACH DETECTED"
    else if status == "RATE_LIMITED" then "PENYESUAIAN BERTAHAP (STEP-UP)"
    else status
  }

  /** Distinct known codes get distinct labels, so the banner text
      identifies the known code it was made from. */
  lemma KnownLabelsDistinct(a: KnownStatus, b: KnownStatus)
    requires StatusText(a.Code()) == StatusText(b.Code())
    ensures a == b
  {
  }

  /** The colour tells known codes apart, except the two guardrail codes. */
  lemma ColorSeparatesAllButGuardrails(a: KnownStatus, b: KnownStatus)
    requires StatusColor(a.Code()) == StatusColor(b.Code())
    ensures a == b || (a.IsGuardrail() && b.IsGuardrail())
  {
  }
}

=== FILE: constants.dfy ===
/** Set-points and limits of the D0 stage dose controller
    (backend/main.py, module level and the search's local constants). */
module ControlConstants {

  /** Outlet brightness the controller steers to, in %ISO. */
  const TargetBrightness: real := 70.0

  /** Band of outlet brightness in which the current dose is held. */
  const SteadyStateLower: real := 69.0
  const SteadyStateUpper: real := 71.0

  /** Declared next to the band but read by no controller code. */
  const ErrorTolerance: real := 1.0

  /** A searched dose is acceptable when its predicted outlet is this close
      to the target. */
  const SearchTolerance: real := 0.1

  /** Estimated drop of the future inlet brightness per kg of dose removed. */
  const DoseInletSensitivity: real := 0.15

  /** Lowest dose the pump can deliver; the lower end of the absolute bounds. */
  const MinPumpFlow: real := 5.0

  /** Upper end of the absolute bounds and of the search interval. */
  const MaxDose: real := 60.0

  /** Inlet brightness at or above which the controller cuts dose instead of
      searching. */
  const DeepCutInlet: real := TargetBrightness - 0.5

  /** Largest fraction of the current dose one recommendation may move it. */
  const MaxStepFraction: real := 0.20

  /** Dose factors the directional guardrail substitutes. */
  const UnderbleachBump: real := 1.02
  const OverbleachTrim: real := 0.98

  /** Added to kappa before it divides a dose into a K-factor. */
  const KappaOffset: real := 0.1

  /** Iteration cap of the bisection search, and the interval width below
      which it stops early. */
  const MaxIterations: nat := 50
  const ConvergenceWidth: real := 0.1

  /** Volume of the D0 tower and the pulp consistency efficiency factor used
      to derive flow and retention time. */
  const TowerVolume: real := 450.0
  const ConsistencyEfficiency: real := 0.9
}

=== FILE: control_law.dfy ===
/** The control law of the `/predict` endpoint (`predict_dose`,
    backend/main.py): hold inside the steady-state band, otherwise pick a
    dose by cutting (high inlet brightness) or by the bisection search, then
    pass it through the directional guardrail, the rate limiter and the
    absolute bounds. The virtual-sensor estimate of the current outlet and the
    search result are inputs; `outletAt(dose, inlet)` is the predictor used
    for the final outlet estimate. */
module ControlLaw {
  import opened Wrappers
  import opened RealMath
  import opened ControlConstants
  import opened Process
  import Bisection

  /** The control status codes the endpoint emits. */
  datatype Status =
    | HoldSteady
    | DeepCutMode
    | Optimized
    | SafetyUnderbleach
    | SafetyOverbleach
    | RateLimited
  {
    /** The string sent as `control_status`. */
    function Code(): string {
      match this
      case HoldSteady => "HOLD_STEADY"
      case DeepCutMode => "DEEP_CUT_MODE"
      case Optimized => "OPTIMIZED"
      case SafetyUnderbleach => "SAFETY_UNDERBLEACH"
      case SafetyOverbleach => "SAFETY_OVERBLEACH"
      case RateLimited => "RATE_LIMITED"
    }

    /** `predict_dose`'s test `"DEEP_CUT" in status`. */
    predicate IsDeepCut() {
      DeepCutMode?
    }

    /** `predict_dose`'s test `"SAFETY" in status`. */
    predicate IsSafety() {
      SafetyUnderbleach? || SafetyOverbleach?
    }
  }

  /** The `reason` messages, with the quantities they report. */
  datatype Reason =
    | SteadyState(brightness: real)
    | OverBleachCut(cut: real, inletDrop: real)
    | TargetAdjustment(from: real, to: real)
    | PreventedDecrease
    | PreventedIncrease
    | RateLimitedCut(cut: real, inletDrop: real)
    | ChangeLimited(maxChange: real)

  /** A dose on its way through the guardrails, with the status and reason
      it carries and the inlet brightness the final prediction will use. */
  datatype Decision = Decision(dose: real, status: Status, reason: Reason, futureInlet: real)

  /** The endpoint's response, before rounding. */
  datatype Response = Response(
    recommendedDose: real,
    currentDose: real,
    deltaDose: real,
    estimatedOutletCurrent: real,
    predictedOutletOptimized: real,
    kOptimal: real,
    kCurrent: real,
    flowCalculated: real,
    retentionCalculated: real,
    controlStatus: Status,
    reason: Reason)

  predicate InSteadyState(estimatedOutlet: real) {
    SteadyStateLower <= estimatedOutlet <= SteadyStateUpper
  }

  predicate OverBleachRisk(inletBrightness: real) {
    inletBrightness >= DeepCutInlet
  }

  /** Deep-cut branch: remove the dose that the outlet's excess over target
      corresponds to, but not below the pump minimum, and simulate the inlet
      brightness that cut will produce. */
  function DeepCut(current: real, estimatedOutlet: real, inlet: real): (d: Decision)
    ensures d.status == DeepCutMode
    ensures d.dose >= MinPumpFlow
    ensures current >= MinPumpFlow ==> d.dose <= current
    ensures estimatedOutlet <= TargetBrightness ==> d.dose == Max(MinPumpFlow, current)
    ensures current - Max(0.0, estimatedOutlet - TargetBrightness) / DoseInletSensitivity >= MinPumpFlow ==>
              inlet - d.futureInlet == Max(0.0, estimatedOutlet - TargetBrightness)
    // The dose: the cut the excess calls for, unless that goes below the pump minimum.
    ensures current - Max(0.0, estimatedOutlet - TargetBrightness) / DoseInletSensitivity >= MinPumpFlow ==>
              current - d.dose == Max(0.0, estimatedOutlet - TargetBrightness) / DoseInletSensitivity
    ensures current - Max(0.0, estimatedOutlet - TargetBrightness) / DoseInletSensitivity < MinPumpFlow ==>
              d.dose == MinPumpFlow
    // The simulated inlet falls by what the actual cut is worth.
    ensures inlet - d.futureInlet == (current - d.dose) * DoseInletSensitivity
    ensures d.reason == OverBleachCut(current - d.dose, inlet - d.futureInlet)
  {
    var excess := Max(0.0, estimatedOutlet - TargetBrightness);
    var optimal := Max(MinPumpFlow, current - excess / DoseInletSensitivity);
    var cut := current - optimal;
    var drop := cut * DoseInletSensitivity;
    Decision(optimal, DeepCutMode, OverBleachCut(cut, drop), inlet - drop)
  }

  /** Normal branch: the bisection's dose, inlet unchanged. */
  function SearchBranch(estimatedOutlet: real, inlet: real, opt: Bisection.Optimization): (d: Decision)
    ensures d.dose == opt.optimalDose
    ensures d.status == Optimized && !d.status.IsDeepCut() && !d.status.IsSafety()
    ensures d.futureInlet == inlet
    ensures d.reason == TargetAdjustment(estimatedOutlet, TargetBrightness)
  {
    Decision(opt.optimalDose, Optimized, TargetAdjustment(estimatedOutlet, TargetBrightness), inlet)
  }

  /** Guardrail 1. Outside the deep-cut branch, a dose decrease while under
      target becomes a 2 % increase and a dose increase while over target
      becomes a 2 % decrease. */
  function DirectionalGuard(d: Decision, current: real, estimatedOutlet: real): (g: Decision)
    ensures g.futureInlet == d.futureInlet
    ensures d.status.IsDeepCut() ==> g == d
    ensures !d.status.IsDeepCut() && estimatedOutlet < SteadyStateLower && d.dose < current ==>
              g.dose == UnderbleachBump * current && g.status == SafetyUnderbleach
    ensures !d.status.IsDeepCut() && estimatedOutlet > SteadyStateUpper && d.dose > current ==>
              g.dose == OverbleachTrim * current && g.status == SafetyOverbleach
    ensures (!(estimatedOutlet < SteadyStateLower && d.dose < current) &&
             !(estimatedOutlet > SteadyStateUpper && d.dose > current)) ==> g == d
    // The safety meaning: never a decrease under target, never an increase over it.
    ensures !d.status.IsDeepCut() && current >= 0.0 && estimatedOutlet < SteadyStateLower ==> g.dose >= current
    ensures !d.status.IsDeepCut() && current >= 0.0 && estimatedOutlet > SteadyStateUpper ==> g.dose <= current
  {
    var change := d.dose - current;
    if d.status.IsDeepCut() then d
    else if estimatedOutlet < SteadyStateLower && change < 0.0 then
      Decision(current * UnderbleachBump, SafetyUnderbleach, PreventedDecrease, d.futureInlet)
    else if estimatedOutlet > SteadyStateUpper && change > 0.0 then
      Decision(current * OverbleachTrim, SafetyOverbleach, PreventedIncrease, d.futureInlet)
    else d
  }

  /** Guardrail 2. A move larger than 20 % of the current dose is cut back to
      20 % in the same direction; the status becomes RATE_LIMITED unless a
      safety status is already set. The deep-cut message is written only when
      the status, just set to RATE_LIMITED, still says DEEP_CUT, so it never
      is. For a non-negative current dose the limiter is the clip to
      `[0.8 * current, 1.2 * current]`. */
  function RateLimit(d: Decision, current: real, inlet: real): (l: Decision)
    ensures Distance(d.dose, current) <= MaxStepFraction * current ==> l == d
    ensures Distance(d.dose, current) > MaxStepFraction * current ==>
              l.status == (if d.status.IsSafety() then d.status else RateLimited)
    ensures current >= 0.0 ==> Distance(l.dose, current) <= MaxStepFraction * current
    ensures current >= 0.0 ==>
              l.dose == Clip(d.dose, current - MaxStepFraction * current, current + MaxStepFraction * current)
    ensures l.futureInlet == d.futureInlet
    ensures !d.reason.RateLimitedCut? ==> !l.reason.RateLimitedCut?
  {
    var change := d.dose - current;
    var maxChange := current * MaxStepFraction;
    if Abs(change) <= maxChange then d
    else
      var limited := current + Sign(change) * maxChange;
      if d.status.IsSafety() then d.(dose := limited)
      else
        var status := RateLimited;
        if status.IsDeepCut() then
          var cut := current - limited;
          var drop := cut * DoseInletSensitivity;
          Decision(limited, status, RateLimitedCut(cut, drop), inlet - drop)
        else
          Decision(limited, status, ChangeLimited(maxChange), d.futureInlet)
  }

  /** Steps 4 and 5 for a request outside the steady-state band: the branch,
      then the three guardrails in order. */
  function Decide(input: ProcessInput, estimatedOutlet: real, opt: Bisection.Optimization): (d: Decision)
    ensures MinPumpFlow <= d.dose <= MaxDose
    ensures d.status != HoldSteady
    ensures !d.reason.RateLimitedCut?
  {
    var current := input.currentDose;
    var branch :=
      if OverBleachRisk(input.inletBrightness) then DeepCut(current, estimatedOutlet, input.inletBrightness)
      else SearchBranch(estimatedOutlet, input.inletBrightness, opt);
    var guarded := DirectionalGuard(branch, current, estimatedOutlet);
    var limited := RateLimit(guarded, current, input.inletBrightness);
    limited.(dose := Clip(limited.dose, MinPumpFlow, MaxDose))
  }

  /** The response to a request whose process parameters and K-factors
      could be computed. */
  function Respond(input: ProcessInput, params: ProcessParams, estimatedOutlet: real,
                   opt: Bisection.Optimization, outletAt: (real, real) -> real): (resp: Response)
    requires input.kappa + KappaOffset != 0.0
    ensures resp.currentDose == input.currentDose
    ensures resp.deltaDose == resp.recommendedDose - input.currentDose
    ensures resp.kOptimal == KFactor(resp.recommendedDose, input.kappa)
    ensures resp.kCurrent == KFactor(input.currentDose, input.kappa)
    ensures resp.estimatedOutletCurrent == estimatedOutlet
    ensures resp.flowCalculated == params.flow && resp.retentionCalculated == params.retention
    ensures !resp.reason.RateLimitedCut?
    ensures InSteadyState(estimatedOutlet) ==>
              && resp.recommendedDose == input.currentDose
              && resp.deltaDose == 0.0
              && resp.kOptimal == resp.kCurrent
              && resp.predictedOutletOptimized == estimatedOutlet
              && resp.controlStatus == HoldSteady
    ensures !InSteadyState(estimatedOutlet) ==>
              && MinPumpFlow <= resp.recommendedDose <= MaxDose
              && resp.controlStatus != HoldSteady
    // The final prediction is at the recommended dose, with the inlet the
    // deep cut simulates, or the measured one.
    ensures !InSteadyState(estimatedOutlet) && !OverBleachRisk(input.inletBrightness) ==>
              resp.predictedOutletOptimized == outletAt(resp.recommendedDose, input.inletBrightness)
    ensures !InSteadyState(estimatedOutlet) && OverBleachRisk(input.inletBrightness) ==>
              resp.predictedOutletOptimized ==
                outletAt(resp.recommendedDose, DeepCut(input.currentDose, estimatedOutlet, input.inletBrightness).futureInlet)
  {
    var current := input.currentDose;
    var kCurrent := KFactor(current, input.kappa);
    if InSteadyState(estimatedOutlet) then
      Response(current, current, 0.0, estimatedOutlet, estimatedOutlet, kCurrent, kCurrent,
               params.flow, params.retention, HoldSteady, SteadyState(estimatedOutlet))
    else
      var d := Decide(input, estimatedOutlet, opt);
      Response(d.dose, current, d.dose - current, estimatedOutlet, outletAt(d.dose, d.futureInlet),
               KFactor(d.dose, input.kappa), kCurrent, params.flow, params.retention, d.status, d.reason)
  }

  /** `predict_dose` from the derived process parameters on: the endpoint
      fails exactly when one of its divisions has a zero divisor. Besides
      the two in the process parameters, these are the K-factor's
      kappa + 0.1 and the predictor's dose per ton, which divides by
      flow + 1 (a flow of -1 takes a production rate and a consistency of
      opposite signs). */
  function PredictDose(input: ProcessInput, estimatedOutlet: real, opt: Bisection.Optimization,
                       outletAt: (real, real) -> real): (r: Result<Response, Fault>)
    ensures r.Ok? <==> && input.consistency != 0.0 && input.productionRate != 0.0
                       && input.kappa + KappaOffset != 0.0
                       && CalculateProcessParams(input.productionRate, input.consistency).value.flow + 1.0 != 0.0
    ensures r.Ok? ==> r.value == Respond(input, CalculateProcessParams(input.productionRate, input.consistency).value,
                                         estimatedOutlet, opt, outletAt)
  {
    match CalculateProcessParams(input.productionRate, input.consistency)
    case Err(e) => Err(e)
    case Ok(params) =>
      if input.kappa + KappaOffset == 0.0 then Err(ZeroDivision)
      else if params.flow + 1.0 == 0.0 then Err(ZeroDivision)
      else Ok(Respond(input, params, estimatedOutlet, opt, outletAt))
  }
}

=== FILE: control_properties.dfy ===
/** Properties of the whole `predict_dose` pipeline: how the branches and
    the three guardrails combine (backend/main.py). */
module ControlProperties {
  import opened RealMath
  import opened ControlConstants
  import opened Process
  import opened ControlLaw
  import Bisection

  /** Python's `needle in s` on strings: `needle` occurs in `s` at some
      position. */
  predicate Contains(s: string, needle: string)
    decreases |s|
  {
    |needle| <= |s| && (s[..|needle|] == needle || Contains(s[1..], needle))
  }

  /** A string missing one of the needle's characters does not contain it. */
  lemma {:induction false} AbsentCharacter(s: string, needle: string, c: char)
    requires c in needle && c !in s
    ensures !Contains(s, needle)
    decreases |s|
  {
    if |needle| <= |s| {
      assert forall x :: x in s[1..] ==> x in s;
      AbsentCharacter(s[1..], needle, c);
    }
  }

  /** A string that starts with the needle contains it. */
  lemma StartsWith(s: string, needle: string)
    requires |needle| <= |s| && s[..|needle|] == needle
    ensures Contains(s, needle)
  {
  }

  /** `IsDeepCut` is `predict_dose`'s test `"DEEP_CUT" in status` on the code
      string: every other code lacks one of its letters. */
  lemma DeepCutTestMatchesSubstring(st: Status)
    ensures st.IsDeepCut() <==> Contains(st.Code(), "DEEP_CUT")
  {
    match st
    case DeepCutMode => StartsWith("DEEP_CUT_MODE", "DEEP_CUT");
    case HoldSteady => AbsentCharacter("HOLD_STEADY", "DEEP_CUT", 'P');
    case Optimized => AbsentCharacter("OPTIMIZED", "DEEP_CUT", 'C');
    case SafetyUnderbleach => AbsentCharacter("SAFETY_UNDERBLEACH", "DEEP_CUT", 'P');
    case SafetyOverbleach => AbsentCharacter("SAFETY_OVERBLEACH", "DEEP_CUT", 'P');
    case RateLimited => AbsentCharacter("RATE_LIMITED", "DEEP_CUT", 'P');
  }

  /** `IsSafety` is `predict_dose`'s test `"SAFETY" in status` on the code
      string: no other code has an 'F'. */
  lemma SafetyTestMatchesSubstring(st: Status)
    ensures st.IsSafety() <==> Contains(st.Code(), "SAFETY")
  {
    match st
    case SafetyUnderbleach => StartsWith("SAFETY_UNDERBLEACH", "SAFETY");
    case SafetyOverbleach => StartsWith("SAFETY_OVERBLEACH", "SAFETY");
    case HoldSteady => AbsentCharacter("HOLD_STEADY", "SAFETY", 'F');
    case DeepCutMode => AbsentCharacter("DEEP_CUT_MODE", "SAFETY", 'F');
    case Optimized => AbsentCharacter("OPTIMIZED", "SAFETY", 'F');
    case RateLimited => AbsentCharacter("RATE_LIMITED", "SAFETY", 'F');
  }

  /** In the deep-cut branch the directional guardrail never fires: the
      status ends as DEEP_CUT_MODE, or RATE_LIMITED when the cut is larger
      than 20 % of the current dose. */
  lemma DeepCutBypassesDirectionalGuard(input: ProcessInput, estimatedOutlet: real,
                                        opt: Bisection.Optimization, outletAt: (real, real) -> real)
    requires PredictDose(input, estimatedOutlet, opt, outletAt).Ok?
    requires !InSteadyState(estimatedOutlet) && OverBleachRisk(input.inletBrightness)
    ensures var resp := PredictDose(input, estimatedOutlet, opt, outletAt).value;
            resp.controlStatus == DeepCutMode || resp.controlStatus == RateLimited
  {
  }

  /** Under target, a searched dose below the current one is replaced by a
      2 % increase, which the rate limiter leaves alone. */
  lemma UnderbleachGuard(input: ProcessInput, estimatedOutlet: real,
                         opt: Bisection.Optimization, outletAt: (real, real) -> real)
    requires PredictDose(input, estimatedOutlet, opt, outletAt).Ok?
    requires !OverBleachRisk(input.inletBrightness) && input.currentDose >= 0.0
    requires estimatedOutlet < SteadyStateLower && opt.optimalDose < input.currentDose
    ensures var resp := PredictDose(input, estimatedOutlet, opt, outletAt).value;
            && resp.controlStatus == SafetyUnderbleach
            && resp.reason == PreventedDecrease
            && resp.recommendedDose == Clip(UnderbleachBump * input.currentDose, MinPumpFlow, MaxDose)
  {
  }

  /** Over target, a searched dose above the current one is replaced by a
      2 % decrease, which the rate limiter leaves alone. */
  lemma OverbleachGuard(input: ProcessInput, estimatedOutlet: real,
                        opt: Bisection.Optimization, outletAt: (real, real) -> real)
    requires PredictDose(input, estimatedOutlet, opt, outletAt).Ok?
    requires !OverBleachRisk(input.inletBrightness) && input.currentDose >= 0.0
    requires estimatedOutlet > SteadyStateUpper && opt.optimalDose > input.currentDose
    ensures var resp := PredictDose(input, estimatedOutlet, opt, outletAt).value;
            && resp.controlStatus == SafetyOverbleach
            && resp.reason == PreventedIncrease
            && resp.recommendedDose == Clip(OverbleachTrim * input.currentDose, MinPumpFlow, MaxDose)
  {
  }

  /** Outside the band, with a non-negative current dose, the final dose is
      within 20 % of the current one exactly when the current dose lies in
      [25/6, 75]: below, the pump minimum of 5 undoes the rate limit; above,
      the maximum of 60 does. */
  lemma RateBoundIffDoseInRange(input: ProcessInput, estimatedOutlet: real,
                                opt: Bisection.Optimization, outletAt: (real, real) -> real)
    requires PredictDose(input, estimatedOutlet, opt, outletAt).Ok?
    requires !InSteadyState(estimatedOutlet) && input.currentDose >= 0.0
    ensures var resp := PredictDose(input, estimatedOutlet, opt, outletAt).value;
            Distance(resp.recommendedDose, input.currentDose) <= MaxStepFraction * input.currentDose
            <==> MinPumpFlow / (1.0 + MaxStepFraction) <= input.currentDose <= MaxDose / (1.0 - MaxStepFraction)
  {
  }

  /** When the deep cut is rate limited, the status and reason are the
      generic RATE_LIMITED ones, and the final prediction still uses the
      inlet brightness simulated for the full, unlimited cut. */
  lemma LimitedDeepCutKeepsFullCutSimulation(input: ProcessInput, estimatedOutlet: real,
                                             opt: Bisection.Optimization, outletAt: (real, real) -> real)
    requires PredictDose(input, estimatedOutlet, opt, outletAt).Ok?
    requires !InSteadyState(estimatedOutlet) && OverBleachRisk(input.inletBrightness)
    requires var cut := DeepCut(input.currentDose, estimatedOutlet, input.inletBrightness);
             Distance(cut.dose, input.currentDose) > MaxStepFraction * input.currentDose
    ensures var resp := PredictDose(input, estimatedOutlet, opt, outletAt).value;
            var cut := DeepCut(input.currentDose, estimatedOutlet, input.inletBrightness);
            && resp.controlStatus == RateLimited
            && resp.reason == ChangeLimited(input.currentDose * MaxStepFraction)
            && resp.predictedOutletOptimized ==
                 outletAt(resp.recommendedDose,
                          input.inletBrightness - (input.currentDose - cut.dose) * DoseInletSensitivity)
  {
  }

  /** Inside the band the current dose is echoed even when it lies outside
      the absolute bounds, which only the guarded path applies. */
  lemma SteadyHoldSkipsBounds(opt: Bisection.Optimization, outletAt: (real, real) -> real)
    ensures var input := ProcessInput(8.5, 75.0, 2.2, 60.0, 100.0, 700.0, 10.5);
            var r := PredictDose(input, 70.0, opt, outletAt);
            r.Ok? && r.value.recommendedDose == 100.0 && r.value.recommendedDose > MaxDose
  {
  }
}

=== FILE: dashboard.dfy ===
/** The dashboard page (frontend/app/page.tsx): the process-reading form,
    its input handler, the submit lifecycle over loading/result/error state,
    the two-point chart and the adjustment indicator. The HTTP call is an
    outcome chosen by the environment. */
module Dashboard {
  import opened Wrappers
  import opened RealMath

  /** A JavaScript value read where a number is expected: a number, NaN, or
      `undefined` when the response has no such property. */
  datatype JsNumber = Num(value: real) | NaN | Undefined

  /** The inputs of the form, by their `name` attribute. */
  datatype Field = Kappa | Temperature | Ph | InletBrightness | PulpFlow | CurrentDose {
    function Name(): string {
      match this
      case Kappa => "kappa"
      case Temperature => "temperature"
      case Ph => "ph"
      case InletBrightness => "inlet_brightness"
      case PulpFlow => "pulp_flow"
      case CurrentDose => "current_dose"
    }
  }

  /** `FormData`: the operator's readings. */
  datatype FormData = FormData(
    kappa: real,
    temperature: real,
    ph: real,
    inletBrightness: real,
    pulpFlow: real,
    currentDose: real)
  {
    function Get(f: Field): real {
      match f
      case Kappa => kappa
      case Temperature => temperature
      case Ph => ph
      case InletBrightness => inletBrightness
      case PulpFlow => pulpFlow
      case CurrentDose => currentDose
    }
  }

  /** The representative operating point the form starts from. */
  const DefaultForm := FormData(8.5, 75.0, 2.2, 70.0, 750.0, 25.0)

  /** `ApiResult`: the response as the page reads it. */
  datatype ApiResult = ApiResult(
    recommendedDose: JsNumber,
    currentDose: JsNumber,
    delta: JsNumber,
    kOptimal: JsNumber,
    kCurrent: JsNumber,
    estimatedOutlet: JsNumber,
    controlStatus: string)

  /** `handleChange`: the edited field takes the parsed number, or 0 when
      `parseFloat` gives NaN (`parsed` is `None`); no other field changes. */
  function HandleChange(form: FormData, f: Field, parsed: Option<real>): (r: FormData)
    ensures r.Get(f) == (if parsed.Some? then parsed.value else 0.0)
    ensures forall g: Field :: g != f ==> r.Get(g) == form.Get(g)
  {
    var v := if parsed.Some? then parsed.value else 0.0;
    match f
    case Kappa => form.(kappa := v)
    case Temperature => form.(temperature := v)
    case Ph => form.(ph := v)
    case InletBrightness => form.(inletBrightness := v)
    case PulpFlow => form.(pulpFlow := v)
    case CurrentDose => form.(currentDose := v)
  }

  /** A second edit of the same field overrides the first. */
  lemma LastEditWins(form: FormData, f: Field, first: Option<real>, second: Option<real>)
    ensures HandleChange(HandleChange(form, f, first), f, second) == HandleChange(form, f, second)
  {
  }

  /** Edits of different fields commute. */
  lemma EditsOfDistinctFieldsCommute(form: FormData, f: Field, p: Option<real>, g: Field, q: Option<real>)
    requires f != g
    ensures HandleChange(HandleChange(form, f, p), g, q) == HandleChange(HandleChange(form, g, q), f, p)
  {
  }

  datatype PointKind = CurrentPoint | TargetPoint

  /** One point of the brightness/dose chart. */
  datatype ChartPoint = ChartPoint(name: string, brightness: JsNumber, dose: JsNumber, kind: PointKind)

  /** Brightness the page plots the recommendation at. */
  const ChartTarget: real := 70.0

  /** The graph data set after a successful request: one current point at
      the estimated outlet and current dose, then one target point at 70 %ISO
      and the recommended dose. */
  function GraphPoints(res: ApiResult): (pts: seq<ChartPoint>)
    ensures |pts| == 2
    ensures pts[0].kind == CurrentPoint && pts[1].kind == TargetPoint
    ensures pts[0].brightness == res.estimatedOutlet && pts[1].brightness == Num(ChartTarget)
    ensures pts[0].dose == res.currentDose && pts[1].dose == res.recommendedDose
  {
    [ ChartPoint("Current Status", res.estimatedOutlet, res.currentDose, CurrentPoint),
      ChartPoint("AI Recommendation", Num(ChartTarget), res.recommendedDose, TargetPoint) ]
  }

  /** When the result's delta is the difference of its doses, the chart's
      dose gap is that delta. */
  lemma ChartPlotsCurrentAgainstTarget(res: ApiResult)
    ensures res.delta.Num? && res.recommendedDose.Num? && res.currentDose.Num? &&
            res.delta.value == res.recommendedDose.value - res.currentDose.value ==>
              GraphPoints(res)[1].dose.value - GraphPoints(res)[0].dose.value == res.delta.value
  {
  }

  /** How the HTTP call ended. */
  datatype Outcome = Success(body: ApiResult) | Failure

  /** The page's state. */
  datatype State = State(
    form: FormData,
    result: Option<ApiResult>,
    graph: seq<ChartPoint>,
    loading: bool,
    error: string)

  const InitialState := State(DefaultForm, None, [], false, "")

  const ConnectionErrorMessage := "Gagal terhubung ke Server."

  /** `handleSubmit` up to the request: loading is set before it is sent. */
  function BeginSubmit(s: State): (t: State)
    ensures t.loading
    ensures t.(loading := s.loading) == s
  {
    s.(loading := true)
  }

  /** `handleSubmit` after the request: a success replaces result and graph,
      a failure sets the error message and leaves them; either way loading
      ends. A success does not clear an earlier error. */
  function Settle(s: State, o: Outcome): (t: State)
    ensures !t.loading && t.form == s.form
    ensures o.Failure? ==> t.error == ConnectionErrorMessage && t.result == s.result && t.graph == s.graph
    ensures o.Success? ==> t.result == Some(o.body) && t.graph == GraphPoints(o.body) && t.error == s.error
  {
    match o
    case Success(body) => s.(result := Some(body), graph := GraphPoints(body), loading := false)
    case Failure => s.(error := ConnectionErrorMessage, loading := false)
  }

  /** What can happen to the page. */
  datatype Event = Edit(field: Field, parsed: Option<real>) | Press | Complete(outcome: Outcome)

  /** One event. The submit button is disabled while loading, so a press
      then starts nothing; a request completes only while one is pending. */
  function Step(s: State, e: Event): (t: State)
    ensures e.Press? ==> (t == s <==> s.loading)
    ensures e.Press? && !s.loading ==> t.loading
    ensures e.Complete? && s.loading ==> !t.loading
  {
    match e
    case Edit(f, parsed) => s.(form := HandleChange(s.form, f, parsed))
    case Press => if s.loading then s else BeginSubmit(s)
    case Complete(o) => if s.loading then Settle(s, o) else s
  }

  function Run(s: State, events: seq<Event>): State
    decreases |events|
  {
    if |events| == 0 then s else Run(Step(s, events[0]), events[1..])
  }

  /** Result and graph always agree, and the error is either empty or the
      connection message. */
  predicate Consistent(s: State) {
    && (s.result.None? ==> s.graph == [])
    && (s.result.Some? ==> s.graph == GraphPoints(s.result.value))
    && (s.error == "" || s.error == ConnectionErrorMessage)
  }

  lemma InitialStateConsistent()
    ensures Consistent(InitialState)
  {
  }

  lemma {:induction false} RunKeepsConsistent(s: State, events: seq<Event>)
    requires Consistent(s)
    ensures Consistent(Run(s, events))
    decreases |events|
  {
    if |events| > 0 {
      RunKeepsConsistent(Step(s, events[0]), events[1..]);
    }
  }

  /** Once shown, the connection error stays: nothing in the page clears it. */
  lemma {:induction false} ErrorIsNeverCleared(s: State, events: seq<Event>)
    requires s.error == ConnectionErrorMessage
    ensures Run(s, events).error == ConnectionErrorMessage
    decreases |events|
  {
    if |events| > 0 {
      ErrorIsNeverCleared(Step(s, events[0]), events[1..]);
    }
  }

  predicate IsSuccess(e: Event) {
    e.Complete? && e.outcome.Success?
  }

  /** Without a successful completion, result and graph are those shown
      before: failures never clear or alter them. */
  lemma {:induction false} FailuresKeepResult(s: State, events: seq<Event>)
    requires forall i :: 0 <= i < |events| ==> !IsSuccess(events[i])
    ensures Run(s, events).result == s.result && Run(s, events).graph == s.graph
    decreases |events|
  {
    if |events| > 0 {
      FailuresKeepResult(Step(s, events[0]), events[1..]);
    }
  }

  /** A press on an idle page followed by a completion shows that
      completion's result, and leaves the page idle again. */
  lemma SubmitRoundTrip(s: State, body: ApiResult)
    requires !s.loading
    ensures var t := Run(s, [Press, Complete(Success(body))]);
            t.result == Some(body) && t.graph == GraphPoints(body) && !t.loading && t.error == s.error
  {
    var events := [Press, Complete(Success(body))];
    var pending := Step(s, Press);
    assert events[1..] == [Complete(Success(body))];
    assert Run(s, events) == Run(pending, [Complete(Success(body))]);
    assert [Complete(Success(body))][1..] == [];
    assert Run(pending, [Complete(Success(body))]) == Settle(pending, Success(body));
  }

  datatype Arrow = UpArrow | DownArrow | NoArrow

  /** Border colour of the adjustment box: blue for no change, red for an
      increase, green otherwise. */
  datatype DeltaTheme = BlueBox | RedBox | GreenBox

  datatype Indicator = Indicator(theme: DeltaTheme, arrow: Arrow, magnitude: JsNumber)

  /** The adjustment indicator. For a number, the arrow and colour follow
      its sign and the magnitude is its absolute value; anything else fails
      every comparison and shows the green box with no arrow and NaN. */
  function Adjustment(delta: JsNumber): (ind: Indicator)
    ensures delta.Num? ==> (ind.arrow == UpArrow <==> delta.value > 0.0)
    ensures delta.Num? ==> (ind.arrow == DownArrow <==> delta.value < 0.0)
    ensures delta.Num? ==> (ind.theme == BlueBox <==> ind.arrow == NoArrow)
    ensures delta.Num? ==> (ind.theme == RedBox <==> ind.arrow == UpArrow)
    ensures delta.Num? ==> ind.magnitude == Num(Abs(delta.value))
    ensures !delta.Num? ==> ind == Indicator(GreenBox, NoArrow, NaN)
  {
    var theme := if delta == Num(0.0) then BlueBox else if delta.Num? && delta.value > 0.0 then RedBox else GreenBox;
    var arrow := if delta.Num? && delta.value > 0.0 then UpArrow
                 else if delta.Num? && delta.value < 0.0 then DownArrow
                 else NoArrow;
    var magnitude := if delta.Num? then Num(Abs(delta.value)) else NaN;
    Indicator(theme, arrow, magnitude)
  }
}

=== FILE: process.dfy ===
/** Process readings accepted by the advisor's `/predict` endpoint and the
    flow and retention time derived from them (backend/main.py). */
module Process {
  import opened Wrappers
  import opened ControlConstants

  /** The only way the modelled computations fail: Python raises
      ZeroDivisionError, which the endpoint turns into an HTTP 500. */
  datatype Fault = ZeroDivision

  /** The request body of `/predict`. */
  datatype ProcessInput = ProcessInput(
    kappa: real,
    temperature: real,
    ph: real,
    inletBrightness: real,
    currentDose: real,
    productionRate: real,
    consistency: real)

  /** Pulp flow into the tower and the time the pulp spends in it. */
  datatype ProcessParams = ProcessParams(flow: real, retention: real)

  /** A dose normalised by kappa, as the K-factors of the response are. */
  function KFactor(dose: real, kappa: real): (k: real)
    requires kappa + KappaOffset != 0.0
    ensures k * (kappa + KappaOffset) == dose
  {
    dose / (kappa + KappaOffset)
  }

  /** `calculate_process_params`: flow from production rate and consistency,
      then retention time from flow and tower volume. Either division can
      fail: a zero consistency directly, a zero production rate through a
      zero flow. */
  function CalculateProcessParams(productionRate: real, consistency: real): (r: Result<ProcessParams, Fault>)
    ensures r.Ok? <==> consistency != 0.0 && productionRate != 0.0
    ensures r.Ok? ==> r.value.flow * (ConsistencyEfficiency * consistency) == productionRate * 100.0
    ensures r.Ok? ==> r.value.retention * r.value.flow == TowerVolume * 60.0
    ensures productionRate > 0.0 && consistency > 0.0 ==>
              r.Ok? && r.value.flow > 0.0 && r.value.retention > 0.0
  {
    var divisor := ConsistencyEfficiency * consistency;
    if divisor == 0.0 then Err(ZeroDivision)
    else
      var flow := productionRate * 100.0 / divisor;
      if flow == 0.0 then Err(ZeroDivision)
      else Ok(ProcessParams(flow, TowerVolume / flow * 60.0))
  }

  /** At a fixed positive consistency, a higher production rate gives a
      higher flow and a shorter retention time. */
  lemma RetentionFallsAsRateRises(rate1: real, rate2: real, consistency: real)
    requires 0.0 < rate1 < rate2 && consistency > 0.0
    ensures var p1 := CalculateProcessParams(rate1, consistency);
            var p2 := CalculateProcessParams(rate2, consistency);
            p1.Ok? && p2.Ok? &&
            p1.value.flow < p2.value.flow && p2.value.retention < p1.value.retention
  {
  }

  /** A production rate of 700 t/d at 10.5 % consistency gives a flow of
      70000 / 9.45, about 7407.4, and a retention time of about 3.645. */
  lemma ReferenceOperatingPoint()
    ensures var p := CalculateProcessParams(700.0, 10.5);
            p.Ok? && 7407.0 < p.value.flow < 7408.0 && 3.64 < p.value.retention < 3.65
  {
  }
}

=== FILE: real_math.dfy ===
/** The few numeric helpers the controller uses: Python's `abs`, `max`, `min`,
    and numpy's `sign` and `clip`, over idealised reals. */
module RealMath {

  function Abs(x: real): (r: real)
    ensures r >= 0.0
    ensures r == x || r == -x
  {
    if x < 0.0 then -x else x
  }

  /** Distance between two points of the real line. */
  function Distance(a: real, b: real): (r: real)
    ensures r >= 0.0
    ensures r == a - b || r == b - a
  {
    Abs(a - b)
  }

  function Max(a: real, b: real): (r: real)
    ensures r >= a && r >= b
    ensures r == a || r == b
  {
    if a >= b then a else b
  }

  function Min(a: real, b: real): (r: real)
    ensures r <= a && r <= b
    ensures r == a || r == b
  {
    if a <= b then a else b
  }

  /** numpy's `sign`: -1, 0 or 1, with the sign of `x`. */
  function Sign(x: real): (r: real)
    ensures r * x == Abs(x)
    ensures r == 0.0 <==> x == 0.0
    ensures r == 1.0 || r == 0.0 || r == -1.0
  {
    if x > 0.0 then 1.0 else if x < 0.0 then -1.0 else 0.0
  }

  /** numpy's `clip` with an ordered pair of bounds: the point of
      `[lo, hi]` nearest to `x`. */
  function Clip(x: real, lo: real, hi: real): (r: real)
    requires lo <= hi
    ensures lo <= r <= hi
    ensures lo <= x <= hi ==> r == x
    ensures forall y :: lo <= y <= hi ==> Distance(r, x) <= Distance(y, x)
  {
    if x < lo then lo else if x > hi then hi else x
  }
}

=== FILE: wire.dfy ===
/** What crosses HTTP between the dashboard (frontend/app/page.tsx) and the
    `/predict` endpoint (backend/main.py), and what follows from the two
    sides naming their fields differently. The mismatches are stated here,
    not reconciled. */
module Wire {
  import opened Wrappers
  import opened ControlConstants
  import opened Process
  import ControlLaw
  import Bisection
  import opened Classifier
  import opened Dashboard

  /** JSON values of the response body. */
  datatype Json = JNumber(n: real) | JString(s: string)

  /** The body `axios.post` sends: the form's fields under their input
      names. */
  function RequestBody(form: FormData): (body: map<string, real>)
    ensures forall f: Field :: f.Name() in body && body[f.Name()] == form.Get(f)
    ensures |body| == 6
  {
    map[Kappa.Name() := form.kappa,
        Temperature.Name() := form.temperature,
        Ph.Name() := form.ph,
        InletBrightness.Name() := form.inletBrightness,
        PulpFlow.Name() := form.pulpFlow,
        CurrentDose.Name() := form.currentDose]
  }

  /** The endpoint's request validation: every `ProcessInput` field is
      required and extra keys are ignored; a body missing one is rejected
      (HTTP 422) before `predict_dose` runs. */
  function ParseProcessInput(body: map<string, real>): (r: Option<ProcessInput>)
    ensures r.Some? <==> "production_rate" in body && "consistency" in body && "kappa" in body &&
                         "temperature" in body && "ph" in body && "inlet_brightness" in body &&
                         "current_dose" in body
    ensures r.Some? ==> r.value.kappa == body["kappa"] &&
                        r.value.temperature == body["temperature"] &&
                        r.value.ph == body["ph"] &&
                        r.value.inletBrightness == body["inlet_brightness"] &&
                        r.value.productionRate == body["production_rate"] &&
                        r.value.consistency == body["consistency"] &&
                        r.value.currentDose == body["current_dose"]
  {
    if "kappa" in body && "temperature" in body && "ph" in body && "inlet_brightness" in body &&
       "current_dose" in body && "production_rate" in body && "consistency" in body
    then Some(ProcessInput(body["kappa"], body["temperature"], body["ph"], body["inlet_brightness"],
                           body["current_dose"], body["production_rate"], body["consistency"]))
    else None
  }

  /** The response body: `OptimizationResponse` under its field names. The
      free-text reason is left out. */
  function EncodeResponse(r: ControlLaw.Response): (body: map<string, Json>)
    ensures body.Keys == {"recommended_dose", "current_dose", "delta_dose", "estimated_outlet_current",
                          "predicted_outlet_optimized", "k_optimal", "k_current", "flow_calculated",
                          "retention_calculated", "control_status"}
    ensures forall key :: key in body && key != "control_status" ==> body[key].JNumber?
    ensures body["control_status"] == JString(r.controlStatus.Code())
    ensures body["recommended_dose"].n == r.recommendedDose && body["current_dose"].n == r.currentDose
    ensures body["delta_dose"].n == r.deltaDose
    ensures body["estimated_outlet_current"].n == r.estimatedOutletCurrent
    ensures body["predicted_outlet_optimized"].n == r.predictedOutletOptimized
    ensures body["k_optimal"].n == r.kOptimal && body["k_current"].n == r.kCurrent
    ensures body["flow_calculated"].n == r.flowCalculated && body["retention_calculated"].n == r.retentionCalculated
  {
    map["recommended_dose" := JNumber(r.recommendedDose),
        "current_dose" := JNumber(r.currentDose),
        "delta_dose" := JNumber(r.deltaDose),
        "estimated_outlet_current" := JNumber(r.estimatedOutletCurrent),
        "predicted_outlet_optimized" := JNumber(r.predictedOutletOptimized),
        "k_optimal" := JNumber(r.kOptimal),
        "k_current" := JNumber(r.kCurrent),
        "flow_calculated" := JNumber(r.flowCalculated),
        "retention_calculated" := JNumber(r.retentionCalculated),
        "control_status" := JString(r.controlStatus.Code())]
  }

  /** A property access on the parsed body: `undefined` when absent. */
  function ReadNumber(body: map<string, Json>, key: string): (v: JsNumber)
    ensures v.Num? <==> key in body && body[key].JNumber?
    ensures v.Num? ==> v.value == body[key].n
    ensures !v.NaN?
  {
    if key in body && body[key].JNumber? then Num(body[key].n) else Undefined
  }

  /** `control_status` as the page renders it; an absent status renders as
      nothing, like the empty string. */
  function ReadStatus(body: map<string, Json>): (status: string)
    ensures "control_status" in body && body["control_status"].JString? ==> status == body["control_status"].s
    ensures !("control_status" in body && body["control_status"].JString?) ==> status == ""
  {
    if "control_status" in body && body["control_status"].JString? then body["control_status"].s else ""
  }

  /** `response.data` as the page's `ApiResult`. */
  function ReadApiResult(body: map<string, Json>): (a: ApiResult)
    ensures a.recommendedDose == ReadNumber(body, "recommended_dose")
    ensures a.currentDose == ReadNumber(body, "current_dose")
    ensures a.delta == ReadNumber(body, "delta")
    ensures a.kOptimal == ReadNumber(body, "k_optimal")
    ensures a.kCurrent == ReadNumber(body, "k_current")
    ensures a.estimatedOutlet == ReadNumber(body, "estimated_outlet")
    ensures a.controlStatus == ReadStatus(body)
  {
    ApiResult(ReadNumber(body, "recommended_dose"),
              ReadNumber(body, "current_dose"),
              ReadNumber(body, "delta"),
              ReadNumber(body, "k_optimal"),
              ReadNumber(body, "k_current"),
              ReadNumber(body, "estimated_outlet"),
              ReadStatus(body))
  }

  /** A backend response as the page sees it. */
  function Receive(r: ControlLaw.Response): ApiResult {
    ReadApiResult(EncodeResponse(r))
  }

  /** One submit: validation, then the endpoint `serve`, then the page's
      reading of the body. */
  function Exchange(form: FormData, serve: ProcessInput -> Result<ControlLaw.Response, Fault>): Outcome {
    match ParseProcessInput(RequestBody(form))
    case None => Failure
    case Some(input) =>
      match serve(input)
      case Err(_) => Failure
      case Ok(resp) => Success(Receive(resp))
  }

  /** The page sends `pulp_flow` but no `production_rate` or `consistency`,
      so the endpoint rejects every request the page can make. */
  lemma EveryPageRequestIsRejected(form: FormData, serve: ProcessInput -> Result<ControlLaw.Response, Fault>)
    ensures ParseProcessInput(RequestBody(form)).None?
    ensures Exchange(form, serve) == Failure
  {
  }

  /** Doses, K-factors and status reach the page; `delta` and
      `estimated_outlet` do not, because the backend calls them `delta_dose`
      and `estimated_outlet_current`. */
  lemma PageReadsBackendResponse(r: ControlLaw.Response)
    ensures var a := Receive(r);
            && a.recommendedDose == Num(r.recommendedDose)
            && a.currentDose == Num(r.currentDose)
            && a.kOptimal == Num(r.kOptimal)
            && a.kCurrent == Num(r.kCurrent)
            && a.controlStatus == r.controlStatus.Code()
            && a.delta == Undefined
            && a.estimatedOutlet == Undefined
  {
  }

  /** Consequently the adjustment box of any backend response is green with
      no arrow and a NaN magnitude, even for a held dose. */
  lemma BackendAdjustmentIsBlank(r: ControlLaw.Response)
    ensures Adjustment(Receive(r).delta) == Indicator(GreenBox, NoArrow, NaN)
  {
  }

  /** The chart of a backend response: the target point is at the backend's
      target brightness, the two doses differ by the response's delta, and
      the current point has no brightness. */
  lemma ChartOfBackendResponse(input: ProcessInput, estimatedOutlet: real, opt: Bisection.Optimization,
                               outletAt: (real, real) -> real)
    requires ControlLaw.PredictDose(input, estimatedOutlet, opt, outletAt).Ok?
    ensures var r := ControlLaw.PredictDose(input, estimatedOutlet, opt, outletAt).value;
            var pts := GraphPoints(Receive(r));
            && pts[1].brightness == Num(TargetBrightness)
            && pts[0].dose == Num(input.currentDose)
            && pts[1].dose.Num? && pts[1].dose.value - pts[0].dose.value == r.deltaDose
            && pts[0].brightness == Undefined
  {
  }

  /** Of the codes the backend emits only RATE_LIMITED is one the page
      knows; every other one falls to the default arms: slate theme, warning
      icon, raw code as text. */
  lemma BackendStatusVocabulary(st: ControlLaw.Status)
    ensures st.RateLimited? ==> Classify(st.Code()) == Known(RateLimited)
    ensures !st.RateLimited? ==>
              && Classify(st.Code()) == Unrecognized(st.Code())
              && StatusColor(st.Code()) == Slate
              && StatusIcon(st.Code()) == AlertTriangle
              && StatusText(st.Code()) == st.Code()
  {
  }
}

=== FILE: wrappers.dfy ===
/** Failure-carrying values shared by the backend and frontend models. */
module Wrappers {

  /** A value that may be absent. */
  datatype Option<+T> = None | Some(value: T)

  /** The outcome of an operation that may raise instead of returning. */
  datatype Result<+T, +E> = Ok(value: T) | Err(error: E)
}
